=== FILE: README.md ===
# Subscription bot: lifecycle and role reconciliation

A Dafny model of the core of a Discord bot (`index.js`) that sells
time-limited server roles. A user picks a plan (`1m`, `6m`, `1y`) and a
payment rail (`pay_VN`, `pay_JP`), sends a picture of the bank transfer to
the bot by direct message, and an operator approves or rejects it. On
approval the subscription's expiry moves forward by the plan's months and
the user gets the plan's final role; while the bill waits, the user holds a
waiting role. An hourly job deletes every record more than two days past
its expiry and takes the roles away.

State is the in-memory `members` map (a record per user id:
`plan`, `payCountry`, `transferNote`, `billFile`, `expireAt`) together with
the roles each server member holds. Every handler is a pure function from
one state to the next; events are processed one at a time.

Modules (one file each):

- `Wrappers` (`wrappers.dfy`): `Option`, standing for JavaScript's absent property.
- `Catalog` (`catalog.dfy`): plan codes, `planToMonth`, the final and waiting
  role tables, and the role universes the reconciliation clears.
- `Store` (`store.dfy`): records, the member map, the transfer note, record
  creation on a first button press, and the well-formedness invariant.
- `Commands` (`commands.dfy`): decoding of button identifiers, including
  `split('_')[1]`, and the identifiers the bot builds.
- `Entitlements` (`entitlements.dfy`): `updateWaitingRole`,
  `updateFinalRole` and the sweep's removal loop. These clear a role
  universe with one call per role, then add one role (the sweep's loop adds none). The platform's answers
  are explicit: whether the member fetch returned a member, and which calls
  failed, by position.
- `Lifecycle` (`lifecycle.dfy`): the button handler and the direct-message
  handler as transitions of the world state.
- `Sweeper` (`sweeper.dfy`): the hourly expiry job, as a loop over the
  records, proved against an element-wise specification.
- `Scenarios` (`scenarios.dfy`): properties of event sequences.

Calendar month arithmetic (`addMonths`) is a parameter. The one property of
it the proofs use, `Lifecycle.Extends`, is that adding one month or more
moves a time strictly forward. JavaScript's `setMonth` has that property
but is not monotone in its base: January 31 plus one month rolls over into
March, past February 1 plus one month. So monotonicity is not assumed.

Behaviours of the handlers worth knowing:

- Choosing a payment country does not check that a plan was chosen
  (`index.js:132-136`).
- A bill is accepted once a plan is set, whether or not a country was
  chosen (`index.js:207`).
- Only the final-role update clears the whole entitlement universe. The
  waiting-role update clears waiting roles only (`index.js:87-88`), so a
  subscriber who renews while active holds the final role and the waiting
  role together (`Scenarios.RenewalHoldsTwoEntitlementRoles`).
- The only button verbs are the plan codes and the `pay_`, `approve_`,
  `reject_` prefixes. Any other identifier only creates the presser's
  record.
- Every button press creates a record for the presser, the operator's
  approve and reject presses included (`index.js:112`).
- Rejecting deletes the record without touching roles, so a waiting role
  granted with the bill stays until a later reconciliation.

## Model

| member | source | states |
|---|---|---|
| Catalog.ParseTier | index.js:115 | exactly the three plan codes are recognised, each as its own plan |
| Catalog.PlanToMonth | index.js:80 | the month count agrees with the catalog's duration for every plan code and is 1 for any other string |
| Catalog.FinalRoleFor | index.js:33-37 | a final role exists exactly for the plan codes, and it is that plan's final role |
| Catalog.WaitRoleFor | index.js:39-43 | a waiting role exists exactly for the plan codes, and it is that plan's waiting role |
| Catalog.UniverseContents | index.js:97-100 | the cleared universe is exactly the final and waiting roles; the waiting universe is exactly the waiting roles |
| Commands.UpTo | index.js:133 | the result is the longest separator-free prefix of the input |
| Commands.Field1 | index.js:133 | field 1 follows the verb and its underscore, contains no underscore, and ends at the end or at the next underscore |
| Commands.Decode | index.js:115-194 | plan codes win; otherwise the `pay_`, `approve_` and `reject_` prefixes select a command whose argument is exactly field 1 of the identifier (`Commands.Field1`); everything else is unhandled |
| Commands.DecodeEncode | index.js:237-238 | every identifier the bot builds with an underscore-free argument decodes back to its command |
| Commands.EncodeDecode | index.js:132-133 | a decoded command re-encodes to a prefix of the identifier, and what decoding drops begins at an underscore |
| Store.TransferNote | index.js:135 | the note is `DISCORD_` followed by the user id |
| Store.TransferNoteInjective | index.js:135 | distinct users never share a transfer note |
| Store.EnsureRecord | index.js:112 | the presser gets a record `{expireAt: 0}` when it had none; every existing record is kept as it was |
| Entitlements.RemoveEach | index.js:100-102 | the removal loop takes away exactly the roles whose calls went through; a failed call does not stop later ones |
| Entitlements.Reconcile | index.js:93-105 | a missing member changes nothing; otherwise the successful removals and the successful add take effect and nothing else |
| Entitlements.Added | index.js:104 | the add contributes the target exactly when the target is defined and its call went through |
| Entitlements.ReconcileFrame | index.js:97-104 | roles outside the universe, other than the target, are kept or absent exactly as before, whatever fails |
| Entitlements.ReconcileFailuresAreIndependent | index.js:101 | each removal that went through takes its role away, whichever other calls failed |
| Entitlements.ReconcileAllSucceed | index.js:97-104 | with every call going through, the universe holds exactly the target afterwards |
| Entitlements.ReconcileForgetsHistory | index.js:93-105 | with every call going through, the result does not depend on which universe roles were held before |
| Entitlements.ReconcileIdempotent | index.js:93-105 | with every call going through, reconciling twice equals reconciling once |
| Entitlements.UpdateWaitingRole | index.js:83-91 | no member, no change; otherwise exactly the successful waiting-role removals and the successful add take effect; only waiting roles can change; with every call going through, exactly the plan's waiting role is held among them |
| Entitlements.UpdateFinalRole | index.js:93-105 | no member, no change; otherwise exactly the successful removals and the successful add take effect; unrelated roles are kept; with every call going through, exactly the plan's final role is held among all final and waiting roles |
| Entitlements.UpdateFinalRoleIdempotent | index.js:93-105 | a second `updateFinalRole` with every call going through changes nothing |
| Entitlements.UpdateWaitingRoleIdempotent | index.js:83-91 | a second `updateWaitingRole` with every call going through changes nothing |
| Entitlements.RevokeAll | index.js:262-270 | roles only disappear, exactly those whose removal call went through; unrelated roles are kept; with every call going through, no final or waiting role is left |
| Lifecycle.SyncFinal | index.js:183-184 | only the approved user's roles are reconciled, and only if that user is in the server |
| Lifecycle.SyncWaiting | index.js:232-233 | only the bill sender's roles are reconciled, and only if that user is in the server |
| Lifecycle.SetPlan | index.js:115-117 | only the presser's `plan` changes; expiry, country, note, bill and all other records are untouched |
| Lifecycle.SetCountry | index.js:132-136 | only the presser's country and transfer note change, the note being the presser's own |
| Lifecycle.NewExpiry | index.js:177-180 | the plan's months are added to the later of now and the old expiry, so the new expiry lies after both |
| Lifecycle.ApproveTarget | index.js:172-184 | a target without record or plan changes nothing; otherwise only the target's expiry and the target's roles change |
| Lifecycle.RejectTarget | index.js:193-195 | exactly the named record is removed; every other record is unchanged |
| Lifecycle.OnButton | index.js:108-198 | every press leaves the presser with a record unless it rejects the presser; plan and country presses change only the presser's fields; an approval changes only the target's record and roles besides creating the presser's record; a rejection removes only the target; only approvals touch roles |
| Lifecycle.ButtonPreservesWellFormed | index.js:108-198 | every button press keeps stored plans to plan codes and transfer notes to their owner's note |
| Lifecycle.OnDirectMessage | index.js:201-233 | with the guards gathered in `Lifecycle.BillAccepted`: a server message, a bot's message, a sender without a plan, no attachment, or a non-image first attachment changes nothing; otherwise only the sender's `billFile` and waiting role change |
| Lifecycle.StepPreservesWellFormed | index.js:108-233 | every event, dispatched by `Lifecycle.Step` to the button or the direct-message handler, keeps stored plans to plan codes and transfer notes to their owner's note |
| Lifecycle.StepNeverShortensExpiry | index.js:108-233 | no event moves a surviving record's expiry earlier |
| Sweeper.GraceBoundary | index.js:261 | for the expiry test `Sweeper.Expired`, a record one millisecond past the two-day grace is expired; one at or inside the boundary is not |
| Sweeper.Sweep | index.js:256-275 | a failed server fetch at the start of the pass changes nothing; otherwise exactly the records with nonzero expiry more than two days past are deleted, fetched or not; the rest are kept; only deleted users lose roles |
| Scenarios.ApproveTwiceAddsTwoMonths | index.js:177-180 | two approvals of a one-month plan at the same instant add two months, not one |
| Scenarios.PurchasePath | index.js:112-184 | plan, country, image bill and approval lead to a complete record expiring one month after approval, holding exactly the one-month final role |
| Scenarios.RejectThenChooseStartsFresh | index.js:193-195 | after a rejection, by the operator or by the user themself, the user's next plan choice starts from a fresh record |
| Scenarios.RenewalHoldsTwoEntitlementRoles | index.js:83-91 | an active subscriber who sends a renewal bill holds both the final and the waiting role |

## Left out

- Replies, direct messages to users and the operator-channel message, with their text, prices and bank details (`index.js:119-128`, `138-168`, `186-189`, `235-252`): output through the Discord library, with no effect on state. A `pay_VN` press by a user without a plan throws while formatting the price (`index.js:147`); the country and note were already set and saved (`index.js:134-136`), so the state is the one the model computes.
- Loading and saving `members.json` (`index.js:64-71`): the state is the model's map. Two paths change the map without saving it: a button press that matches no command, and an approve refused for lack of a plan (`index.js:175`); both leave the presser's new record in memory only. The model has only the in-memory map, so the difference from the file is not modelled.
- The bill download and file write (`index.js:220-227`): the stored path is an input (`Env.billPath`), and the model assumes the download and the write succeed. If either fails, the handler stops before setting `billFile` (`index.js:229`) and before the waiting-role update; that path is not modelled.
- Calendar arithmetic inside `addMonths` (`index.js:74-78`): it is a parameter, and the property proofs assume only `Lifecycle.Extends`.
- Lifecycle.NewExpiry: promises an expiry after now and after the old expiry only under `Extends`; `Date` results outside the representable range (NaN) are not modelled.
- Fetching the server (`client.guilds.fetch`) in the handlers (`index.js:183`, `232`): it runs after the record is saved, and a failure there skips the role calls, which the model covers as a failed member fetch (`Calls.fetched == false`). In the sweep (`index.js:258`) a failure ends the pass before any record is visited; `Sweeper.Sweep` models that through its `guildFetched` input.
- Interval timing and `await` interleaving (`index.js:256`, `275`): events and sweep passes are processed one at a time, each to completion.
- Role identifiers from environment variables (`index.js:33-43`): roles are abstract and pairwise distinct, so a missing or duplicated variable is not modelled.
- Login and client setup (`index.js:19-27`, `278`).

=== FILE: catalog.dfy ===
/**
 * The plan catalog: the three plan codes carried by the plan buttons, their
 * durations, and the two role tables (final role and waiting role per plan).
 * Role identifiers come from the environment in the bot; here they are
 * abstract, pairwise distinct values.
 */
module Catalog {
  import opened Wrappers

  /** One day in milliseconds. */
  const DAY: int := 86400000

  /** The plans offered by the plan buttons. */
  datatype Tier = OneMonth | SixMonths | OneYear {

    /** The button identifier (and the value stored as a record's `plan`). */
    function Code(): string {
      match this
      case OneMonth => "1m"
      case SixMonths => "6m"
      case OneYear => "1y"
    }

    /** The plan's duration in months. */
    function Months(): nat {
      match this
      case OneMonth => 1
      case SixMonths => 6
      case OneYear => 12
    }
  }

  /** Recognises a plan code; `None` for every other string. */
  function ParseTier(s: string): (r: Option<Tier>)
    ensures r.Some? ==> r.value.Code() == s
    ensures forall t: Tier :: t.Code() == s ==> r == Some(t)
  {
    if s == "1m" then Some(OneMonth)
    else if s == "6m" then Some(SixMonths)
    else if s == "1y" then Some(OneYear)
    else None
  }

  /**
   * The bot's `planToMonth`: six for "6m", twelve for "1y", and one for
   * every other string, "1m" included. It agrees with the catalog on every
   * plan code and falls back to one month elsewhere.
   */
  function PlanToMonth(p: string): (n: nat)
    ensures n == (match ParseTier(p) case Some(t) => t.Months() case None => 1)
    ensures n >= 1
  {
    if p == "6m" then 6 else if p == "1y" then 12 else 1
  }

  /** Platform roles: the six entitlement roles and any unrelated role. */
  datatype Role = FinalRole(tier: Tier) | WaitRole(tier: Tier) | OtherRole(name: string)

  /** `ROLE_BY_PLAN[plan]`: `None` when the plan is not a key of the table. */
  function FinalRoleFor(plan: string): (r: Option<Role>)
    ensures r.Some? <==> ParseTier(plan).Some?
    ensures r.Some? ==> r.value.FinalRole? && r.value.tier.Code() == plan
  {
    match ParseTier(plan)
    case Some(t) => Some(FinalRole(t))
    case None => None
  }

  /** `ROLE_WAIT_BY_PLAN[plan]`: `None` when the plan is not a key of the table. */
  function WaitRoleFor(plan: string): (r: Option<Role>)
    ensures r.Some? <==> ParseTier(plan).Some?
    ensures r.Some? ==> r.value.WaitRole? && r.value.tier.Code() == plan
  {
    match ParseTier(plan)
    case Some(t) => Some(WaitRole(t))
    case None => None
  }

  /** `Object.values(ROLE_WAIT_BY_PLAN)`, in the table's key order. */
  const WaitUniverse: seq<Role> := [WaitRole(OneMonth), WaitRole(SixMonths), WaitRole(OneYear)]

  /** `Object.values(ROLE_BY_PLAN)` followed by `Object.values(ROLE_WAIT_BY_PLAN)`. */
  const EntitlementUniverse: seq<Role> :=
    [FinalRole(OneMonth), FinalRole(SixMonths), FinalRole(OneYear)] + WaitUniverse

  /** The entitlement universe holds exactly the final and waiting roles. */
  lemma UniverseContents()
    ensures forall x :: x in EntitlementUniverse <==> !x.OtherRole?
    ensures forall x :: x in WaitUniverse <==> x.WaitRole?
  {
    forall x: Role
      ensures x in EntitlementUniverse <==> !x.OtherRole?
      ensures x in WaitUniverse <==> x.WaitRole?
    {
      if !x.OtherRole? {
        match x.tier
        case OneMonth =>
        case SixMonths =>
        case OneYear =>
      }
    }
  }
}

=== FILE: commands.dfy ===
/**
 * Button identifiers (`customId`s). A plan button carries the plan code; the
 * payment, approve and reject buttons carry `<verb>_<argument>`, and the bot
 * reads the argument as field 1 of `customId.split('_')`. The handler tests
 * the plan codes first, then the prefixes `pay_`, `approve_`, `reject_`.
 */
module Commands {
  import opened Wrappers
  import opened Catalog
  import opened Store

  /** The separator `split('_')` cuts at. */
  const SEP: char := '_'

  /** The decoded meaning of a button press. */
  datatype Command =
    | ChoosePlan(tier: Tier)
    | Pay(country: string)
    | Approve(target: UserId)
    | Reject(target: UserId)
    | Unhandled

  /** The longest prefix of `s` free of `sep`: what `split(sep)` yields as the field starting at `s`. */
  function UpTo(s: string, sep: char): (r: string)
    ensures r <= s
    ensures sep !in r
    ensures |r| == |s| || s[|r|] == sep
  {
    if |s| == 0 || s[0] == sep then "" else [s[0]] + UpTo(s[1..], sep)
  }

  /** Field 1 of `s.split('_')` when `s` starts with `verb` followed by `_`. */
  function Field1(s: string, verb: string): (r: string)
    requires verb + [SEP] <= s
    ensures SEP !in r
    ensures verb + [SEP] + r <= s
    ensures |verb| + 1 + |r| == |s| || s[|verb| + 1 + |r|] == SEP
  {
    UpTo(s[|verb| + 1..], SEP)
  }

  /** The order of tests in the interaction handler. */
  function Decode(customId: string): (c: Command)
    ensures c.ChoosePlan? <==> ParseTier(customId).Some?
    ensures c.ChoosePlan? ==> customId == c.tier.Code()
    ensures c.Pay? ==> "pay_" <= customId && c.country == Field1(customId, "pay")
    ensures c.Approve? ==> "approve_" <= customId && c.target == Field1(customId, "approve")
    ensures c.Reject? ==> "reject_" <= customId && c.target == Field1(customId, "reject")
    ensures c.Unhandled? <==>
      ParseTier(customId).None? && !("pay_" <= customId) && !("approve_" <= customId) && !("reject_" <= customId)
  {
    match ParseTier(customId)
    case Some(t) => ChoosePlan(t)
    case None =>
      if "pay" + [SEP] <= customId then Pay(Field1(customId, "pay"))
      else if "approve" + [SEP] <= customId then Approve(Field1(customId, "approve"))
      else if "reject" + [SEP] <= customId then Reject(Field1(customId, "reject"))
      else Unhandled
  }

  /** The `customId` the bot puts on the button for a command. */
  function Encode(c: Command): string {
    match c
    case ChoosePlan(t) => t.Code()
    case Pay(x) => "pay_" + x
    case Approve(u) => "approve_" + u
    case Reject(u) => "reject_" + u
    case Unhandled => ""
  }

  /** A command whose argument survives `split('_')`: it holds no underscore. */
  predicate Encodable(c: Command) {
    match c
    case Pay(x) => SEP !in x
    case Approve(u) => SEP !in u
    case Reject(u) => SEP !in u
    case _ => true
  }

  /** A field without separators is read back whole. */
  lemma {:induction false} UpToWhole(s: string, sep: char)
    requires sep !in s
    ensures UpTo(s, sep) == s
  {
    if |s| > 0 {
      UpToWhole(s[1..], sep);
    }
  }

  /** Every button the bot builds decodes to the command it was built for. */
  lemma DecodeEncode(c: Command)
    requires Encodable(c)
    ensures Decode(Encode(c)) == c
  {
    match c
    case ChoosePlan(t) =>
    case Pay(x) =>
      var s := "pay_" + x;
      assert s[4..] == x;
      UpToWhole(x, SEP);
    case Approve(u) =>
      var s := "approve_" + u;
      assert s[0] == 'a';
      assert s[8..] == u;
      UpToWhole(u, SEP);
    case Reject(u) =>
      var s := "reject_" + u;
      assert s[0] == 'r';
      assert s[7..] == u;
      UpToWhole(u, SEP);
    case Unhandled =>
  }

  /**
   * Decoding keeps the verb and field 1 and drops only a tail that starts
   * at the next underscore: the decoded command re-encodes to a prefix of
   * the identifier.
   */
  lemma EncodeDecode(s: string)
    ensures Encodable(Decode(s))
    ensures !Decode(s).Unhandled? ==> Encode(Decode(s)) <= s
    ensures !Decode(s).Unhandled? ==>
      var e := Encode(Decode(s)); |e| == |s| || s[|e|] == SEP
  {
  }
}

=== FILE: entitlements.dfy ===
/**
 * Role reconciliation (`updateWaitingRole`, `updateFinalRole` and the
 * removal loop of the expiry sweep): fetch the member, remove every role of
 * a fixed universe one call at a time, then add one target role (the sweep
 * adds none). Every call may fail on its own and every failure is swallowed.
 */
module Entitlements {
  import opened Wrappers
  import opened Catalog

  /**
   * What the platform answers during one reconciliation. `fetched` is
   * false when the member fetch came back empty (the user left, or the
   * call failed); `failed` holds the positions, in issue order, of the role
   * calls that failed: the removals are calls `0 .. |universe|-1` and the
   * add is call `|universe|`.
   */
  datatype Calls = Calls(fetched: bool, failed: set<nat>)

  /** Every call of a reconciliation goes through. */
  predicate AllSucceed(c: Calls) {
    c.fetched && c.failed == {}
  }

  /** The roles whose removal call, from position `from` on, went through. */
  ghost function Removed(universe: seq<Role>, failed: set<nat>, from: nat): set<Role> {
    set j | from <= j < |universe| && j !in failed :: universe[j]
  }

  /** The removal loop from position `from`: each failed call is skipped, the rest still run. */
  function RemoveEach(roles: set<Role>, universe: seq<Role>, failed: set<nat>, from: nat): (r: set<Role>)
    requires from <= |universe|
    ensures r == roles - Removed(universe, failed, from)
    decreases |universe| - from
  {
    if from == |universe| then roles
    else
      var next := if from in failed then roles else roles - {universe[from]};
      var r := RemoveEach(next, universe, failed, from + 1);
      assert Removed(universe, failed, from) ==
        Removed(universe, failed, from + 1) + (if from in failed then {} else {universe[from]});
      r
  }

  /**
   * Clear `universe`, then add `target`. A missing member changes nothing;
   * otherwise exactly the successful removals take effect, and the target
   * is present afterwards iff its add went through or it was already there
   * and its removal did not.
   */
  function Reconcile(roles: set<Role>, universe: seq<Role>, target: Option<Role>, calls: Calls): (r: set<Role>)
    ensures !calls.fetched ==> r == roles
    ensures calls.fetched ==> r == (roles - Removed(universe, calls.failed, 0)) + Added(target, calls, |universe|)
  {
    if !calls.fetched then roles
    else RemoveEach(roles, universe, calls.failed, 0) + Added(target, calls, |universe|)
  }

  /** The role the final add call puts on the member: nothing if the call failed or the target is undefined. */
  function Added(target: Option<Role>, calls: Calls, index: nat): (r: set<Role>)
    ensures r != {} <==> target.Some? && index !in calls.failed
    ensures r <= (if target.Some? then {target.value} else {})
  {
    if target.Some? && index !in calls.failed then {target.value} else {}
  }

  /**
   * Roles outside the universe are never touched, whatever fails, except
   * that the target may be added.
   */
  lemma ReconcileFrame(roles: set<Role>, universe: seq<Role>, target: Option<Role>, calls: Calls)
    ensures forall x :: x !in universe && target != Some(x) ==>
      (x in Reconcile(roles, universe, target, calls) <==> x in roles)
  {
  }

  /**
   * One failing call never stops another: every removal that went through
   * took its role away (unless it is the target and the add went through),
   * and a successful add leaves the target in place.
   */
  lemma ReconcileFailuresAreIndependent(roles: set<Role>, universe: seq<Role>, target: Option<Role>, calls: Calls, j: nat)
    requires calls.fetched && j < |universe| && j !in calls.failed
    requires Added(target, calls, |universe|) == {} || target.value != universe[j]
    ensures universe[j] !in Reconcile(roles, universe, target, calls)
  {
  }

  /** When every call goes through, the universe is left holding exactly the target. */
  lemma ReconcileAllSucceed(roles: set<Role>, universe: seq<Role>, target: Option<Role>, calls: Calls)
    requires AllSucceed(calls)
    ensures forall x :: x in universe ==> (x in Reconcile(roles, universe, target, calls) <==> Some(x) == target)
  {
    forall x | x in universe
      ensures x in Reconcile(roles, universe, target, calls) <==> Some(x) == target
    {
      var j :| 0 <= j < |universe| && universe[j] == x;
      assert x in Removed(universe, calls.failed, 0);
    }
  }

  /**
   * Self-healing: with every call going through, the outcome does not
   * depend on which universe roles the member held before, so a
   * reconciliation after a partly failed one ends as if the first had not
   * happened.
   */
  lemma ReconcileForgetsHistory(a: set<Role>, b: set<Role>, universe: seq<Role>, target: Option<Role>, calls: Calls)
    requires AllSucceed(calls)
    requires forall x :: x !in universe ==> (x in a <==> x in b)
    ensures Reconcile(a, universe, target, calls) == Reconcile(b, universe, target, calls)
  {
    ReconcileAllSucceed(a, universe, target, calls);
    ReconcileAllSucceed(b, universe, target, calls);
    ReconcileFrame(a, universe, target, calls);
    ReconcileFrame(b, universe, target, calls);
  }

  /** With every call going through, reconciling twice is reconciling once. */
  lemma ReconcileIdempotent(roles: set<Role>, universe: seq<Role>, target: Option<Role>, calls: Calls)
    requires AllSucceed(calls)
    requires target.Some? ==> target.value in universe
    ensures Reconcile(Reconcile(roles, universe, target, calls), universe, target, calls)
         == Reconcile(roles, universe, target, calls)
  {
    ReconcileFrame(roles, universe, target, calls);
    ReconcileForgetsHistory(Reconcile(roles, universe, target, calls), roles, universe, target, calls);
  }

  /** `updateWaitingRole`: clear the waiting roles, add the plan's waiting role. */
  function UpdateWaitingRole(roles: set<Role>, plan: string, calls: Calls): (r: set<Role>)
    ensures !calls.fetched ==> r == roles
    ensures calls.fetched ==> r == (roles - Removed(WaitUniverse, calls.failed, 0)) + Added(WaitRoleFor(plan), calls, |WaitUniverse|)
    ensures forall x: Role :: !x.WaitRole? ==> (x in r <==> x in roles)
    ensures AllSucceed(calls) ==> forall x: Role :: x.WaitRole? ==> (x in r <==> Some(x) == WaitRoleFor(plan))
  {
    UniverseContents();
    ReconcileFrame(roles, WaitUniverse, WaitRoleFor(plan), calls);
    var r := Reconcile(roles, WaitUniverse, WaitRoleFor(plan), calls);
    if AllSucceed(calls) then ReconcileAllSucceed(roles, WaitUniverse, WaitRoleFor(plan), calls); r else r
  }

  /** `updateFinalRole`: clear every final and waiting role, add the plan's final role. */
  function UpdateFinalRole(roles: set<Role>, plan: string, calls: Calls): (r: set<Role>)
    ensures !calls.fetched ==> r == roles
    ensures calls.fetched ==> r == (roles - Removed(EntitlementUniverse, calls.failed, 0)) + Added(FinalRoleFor(plan), calls, |EntitlementUniverse|)
    ensures forall x: Role :: x.OtherRole? ==> (x in r <==> x in roles)
    ensures AllSucceed(calls) ==> forall x: Role :: !x.OtherRole? ==> (x in r <==> Some(x) == FinalRoleFor(plan))
  {
    UniverseContents();
    ReconcileFrame(roles, EntitlementUniverse, FinalRoleFor(plan), calls);
    var r := Reconcile(roles, EntitlementUniverse, FinalRoleFor(plan), calls);
    if AllSucceed(calls) then ReconcileAllSucceed(roles, EntitlementUniverse, FinalRoleFor(plan), calls); r else r
  }

  /** `updateFinalRole` with every call going through is idempotent. */
  lemma UpdateFinalRoleIdempotent(roles: set<Role>, plan: string, calls: Calls)
    requires AllSucceed(calls)
    ensures UpdateFinalRole(UpdateFinalRole(roles, plan, calls), plan, calls) == UpdateFinalRole(roles, plan, calls)
  {
    UniverseContents();
    ReconcileIdempotent(roles, EntitlementUniverse, FinalRoleFor(plan), calls);
  }

  /** `updateWaitingRole` with every call going through is idempotent. */
  lemma UpdateWaitingRoleIdempotent(roles: set<Role>, plan: string, calls: Calls)
    requires AllSucceed(calls)
    ensures UpdateWaitingRole(UpdateWaitingRole(roles, plan, calls), plan, calls) == UpdateWaitingRole(roles, plan, calls)
  {
    UniverseContents();
    ReconcileIdempotent(roles, WaitUniverse, WaitRoleFor(plan), calls);
  }

  /** The sweep's removal loop: clear every final and waiting role, add nothing. */
  function RevokeAll(roles: set<Role>, calls: Calls): (r: set<Role>)
    ensures r <= roles
    ensures !calls.fetched ==> r == roles
    ensures calls.fetched ==> r == roles - Removed(EntitlementUniverse, calls.failed, 0)
    ensures forall x: Role :: x.OtherRole? ==> (x in r <==> x in roles)
    ensures AllSucceed(calls) ==> forall x :: x in r ==> x.OtherRole?
  {
    UniverseContents();
    ReconcileFrame(roles, EntitlementUniverse, None, calls);
    var r := Reconcile(roles, EntitlementUniverse, None, calls);
    if AllSucceed(calls) then ReconcileAllSucceed(roles, EntitlementUniverse, None, calls); r else r
  }
}

=== FILE: lifecycle.dfy ===
/**
 * The two event handlers of the bot as transitions of one world state: the
 * button handler (plan choice, payment country, operator approve and
 * reject) and the direct-message handler (bill upload). Replies, messages to
 * the operator channel and file writes carry no state and are left out; the
 * role changes are kept, through the reconciliation functions.
 */
module Lifecycle {
  import opened Wrappers
  import opened Catalog
  import opened Store
  import opened Commands
  import opened Entitlements

  /** The roles each user currently in the server holds. */
  type Guild = map<UserId, set<Role>>

  /** The member map together with the server's role grants. */
  datatype World = World(members: Members, guild: Guild)

  /**
   * What an event handler gets from outside: the clock, calendar month
   * arithmetic, the platform's answers to the role calls of this event, and
   * the path the upload step stored a bill under.
   */
  datatype Env = Env(now: int, addMonths: (int, int) -> int, calls: Calls, billPath: string)

  /** An attachment of a direct message; `None` when it reports no content type. */
  datatype Attachment = Attachment(contentType: Option<string>)

  /** The two kinds of inbound platform events the bot handles. */
  datatype Event =
    | ButtonPress(presser: UserId, customId: string)
    | DirectMessage(author: UserId, inServer: bool, fromBot: bool, attachments: seq<Attachment>)

  /**
   * What the model assumes of calendar arithmetic: adding one month or
   * more moves a time strictly forward.
   */
  ghost predicate Extends(addMonths: (int, int) -> int) {
    forall base: int, months: int :: months >= 1 ==> addMonths(base, months) > base
  }

  /** Reconcile one user's roles with `updateFinalRole`, if the user is in the server. */
  function SyncFinal(g: Guild, id: UserId, plan: string, calls: Calls): (r: Guild)
    ensures r.Keys == g.Keys
    ensures forall k :: k in g && k != id ==> r[k] == g[k]
    ensures id in g ==> r[id] == UpdateFinalRole(g[id], plan, calls)
  {
    if id in g then g[id := UpdateFinalRole(g[id], plan, calls)] else g
  }

  /** Reconcile one user's roles with `updateWaitingRole`, if the user is in the server. */
  function SyncWaiting(g: Guild, id: UserId, plan: string, calls: Calls): (r: Guild)
    ensures r.Keys == g.Keys
    ensures forall k :: k in g && k != id ==> r[k] == g[k]
    ensures id in g ==> r[id] == UpdateWaitingRole(g[id], plan, calls)
  {
    if id in g then g[id := UpdateWaitingRole(g[id], plan, calls)] else g
  }

  /** A plan button: only the presser's `plan` changes. */
  function SetPlan(m: Members, id: UserId, t: Tier): (r: Members)
    requires id in m
    ensures r.Keys == m.Keys
    ensures r[id].plan == Some(t.Code())
    ensures r[id].payCountry == m[id].payCountry && r[id].transferNote == m[id].transferNote
    ensures r[id].billFile == m[id].billFile && r[id].expireAt == m[id].expireAt
    ensures forall k :: k in m && k != id ==> r[k] == m[k]
  {
    m[id := m[id].(plan := Some(t.Code()))]
  }

  /** A `pay_<country>` button: the presser's country and transfer note are set, nothing else. */
  function SetCountry(m: Members, id: UserId, country: string): (r: Members)
    requires id in m
    ensures r.Keys == m.Keys
    ensures r[id].payCountry == Some(country) && r[id].transferNote == Some(TransferNote(id))
    ensures r[id].plan == m[id].plan && r[id].billFile == m[id].billFile && r[id].expireAt == m[id].expireAt
    ensures forall k :: k in m && k != id ==> r[k] == m[k]
  {
    m[id := m[id].(payCountry := Some(country), transferNote := Some(TransferNote(id)))]
  }

  /**
   * The renewed expiry: the plan's months added to the later of the current
   * expiry and now. With calendar arithmetic that moves time forward it lies
   * after both, so an approval never shortens a subscription.
   */
  function NewExpiry(expireAt: int, now: int, plan: string, addMonths: (int, int) -> int): (e: int)
    ensures e == addMonths(if now < expireAt then expireAt else now, PlanToMonth(plan))
    ensures Extends(addMonths) ==> e > now && e > expireAt
  {
    if expireAt > now then addMonths(expireAt, PlanToMonth(plan)) else addMonths(now, PlanToMonth(plan))
  }

  /**
   * An `approve_<uid>` button. A target without a record or without a plan
   * is refused and nothing changes; otherwise only the target's expiry
   * moves and only the target's roles are reconciled to its final role.
   */
  function ApproveTarget(w: World, uid: UserId, env: Env): (r: World)
    ensures !(uid in w.members && HasPlan(w.members[uid])) ==> r == w
    ensures r.members.Keys == w.members.Keys && r.guild.Keys == w.guild.Keys
    ensures forall k :: k in w.members && k != uid ==> r.members[k] == w.members[k]
    ensures forall k :: k in w.guild && k != uid ==> r.guild[k] == w.guild[k]
    ensures uid in w.members && HasPlan(w.members[uid]) ==>
      var prev := w.members[uid];
      && r.members[uid] == prev.(expireAt := NewExpiry(prev.expireAt, env.now, prev.plan.value, env.addMonths))
      && (uid in w.guild ==> r.guild[uid] == UpdateFinalRole(w.guild[uid], prev.plan.value, env.calls))
  {
    if uid !in w.members || !HasPlan(w.members[uid]) then w
    else
      var rec := w.members[uid];
      var plan := rec.plan.value;
      var members := w.members[uid := rec.(expireAt := NewExpiry(rec.expireAt, env.now, plan, env.addMonths))];
      World(members, SyncFinal(w.guild, uid, plan, env.calls))
  }

  /** A `reject_<uid>` button: exactly the named record disappears; roles are not touched. */
  function RejectTarget(m: Members, uid: UserId): (r: Members)
    ensures r.Keys == m.Keys - {uid}
    ensures forall k :: k in r ==> r[k] == m[k]
  {
    m - {uid}
  }

  /**
   * The button handler. Any press first creates `{ expireAt: 0 }` for the
   * presser; then the decoded command runs. Payment, approve and reject
   * take their argument from field 1 of the identifier.
   */
  function OnButton(w: World, presser: UserId, customId: string, env: Env): (r: World)
    ensures Decode(customId) != Reject(presser) ==> presser in r.members
    ensures !Decode(customId).Approve? ==> r.guild == w.guild
    ensures Decode(customId).Unhandled? ==> r.members == EnsureRecord(w.members, presser)
    ensures Decode(customId).ChoosePlan? ==>
      && r.members.Keys == w.members.Keys + {presser}
      && (forall k :: k in w.members && k != presser ==> r.members[k] == w.members[k])
      && r.members[presser] == EnsureRecord(w.members, presser)[presser].(plan := Some(Decode(customId).tier.Code()))
    ensures Decode(customId).Pay? ==>
      && r.members.Keys == w.members.Keys + {presser}
      && (forall k :: k in w.members && k != presser ==> r.members[k] == w.members[k])
      && r.members[presser] == EnsureRecord(w.members, presser)[presser].(
           payCountry := Some(Decode(customId).country), transferNote := Some(TransferNote(presser)))
    ensures Decode(customId).Reject? ==>
      && r.members.Keys == (w.members.Keys + {presser}) - {Decode(customId).target}
      && (forall k :: k in r.members && k != presser ==> r.members[k] == w.members[k])
      && (Decode(customId).target != presser ==> r.members[presser] == EnsureRecord(w.members, presser)[presser])
    ensures Decode(customId).Approve? ==>
      var t := Decode(customId).target;
      && r.members.Keys == w.members.Keys + {presser}
      && r.guild.Keys == w.guild.Keys
      && (forall k :: k in w.members && k != presser && k != t ==> r.members[k] == w.members[k])
      && (presser != t ==> r.members[presser] == EnsureRecord(w.members, presser)[presser])
      && (forall k :: k in w.guild && k != t ==> r.guild[k] == w.guild[k])
  {
    var m := EnsureRecord(w.members, presser);
    match Decode(customId)
    case ChoosePlan(t) => World(SetPlan(m, presser, t), w.guild)
    case Pay(country) => World(SetCountry(m, presser, country), w.guild)
    case Approve(uid) => ApproveTarget(World(m, w.guild), uid, env)
    case Reject(uid) => World(RejectTarget(m, uid), w.guild)
    case Unhandled => World(m, w.guild)
  }

  /** A content type that starts with `image/`. */
  predicate IsImage(a: Attachment) {
    a.contentType.Some? && "image/" <= a.contentType.value
  }

  /**
   * The guards of the direct-message handler: a direct message (not a
   * server message) from a person, whose author has a plan, carrying at
   * least one attachment, the first of which is an image.
   */
  predicate BillAccepted(m: Members, author: UserId, inServer: bool, fromBot: bool, attachments: seq<Attachment>) {
    && !inServer
    && !fromBot
    && author in m && HasPlan(m[author])
    && |attachments| > 0
    && IsImage(attachments[0])
  }

  /**
   * The direct-message handler. A refused message changes nothing; an
   * accepted bill sets only the author's `billFile` and reconciles only the
   * author's waiting role.
   */
  function OnDirectMessage(w: World, author: UserId, inServer: bool, fromBot: bool, attachments: seq<Attachment>, env: Env): (r: World)
    ensures !BillAccepted(w.members, author, inServer, fromBot, attachments) ==> r == w
    ensures r.members.Keys == w.members.Keys && r.guild.Keys == w.guild.Keys
    ensures forall k :: k in w.members && k != author ==> r.members[k] == w.members[k]
    ensures forall k :: k in w.guild && k != author ==> r.guild[k] == w.guild[k]
    ensures BillAccepted(w.members, author, inServer, fromBot, attachments) ==>
      && r.members[author] == w.members[author].(billFile := Some(env.billPath))
      && (author in w.guild ==> r.guild[author] == UpdateWaitingRole(w.guild[author], w.members[author].plan.value, env.calls))
  {
    if !BillAccepted(w.members, author, inServer, fromBot, attachments) then w
    else
      var rec := w.members[author];
      World(w.members[author := rec.(billFile := Some(env.billPath))],
            SyncWaiting(w.guild, author, rec.plan.value, env.calls))
  }

  /** One inbound event, processed to completion before the next. */
  function Step(w: World, e: Event, env: Env): World {
    match e
    case ButtonPress(presser, customId) => OnButton(w, presser, customId, env)
    case DirectMessage(author, inServer, fromBot, attachments) =>
      OnDirectMessage(w, author, inServer, fromBot, attachments, env)
  }

  /** A plan choice keeps the member map well formed. */
  lemma SetPlanWellFormed(m: Members, id: UserId, t: Tier)
    requires WellFormed(m) && id in m
    ensures WellFormed(SetPlan(m, id, t))
  {
  }

  /** A country choice keeps the member map well formed. */
  lemma SetCountryWellFormed(m: Members, id: UserId, country: string)
    requires WellFormed(m) && id in m
    ensures WellFormed(SetCountry(m, id, country))
  {
  }

  /** Every button press keeps the member map well formed. */
  lemma ButtonPreservesWellFormed(w: World, presser: UserId, customId: string, env: Env)
    requires WellFormed(w.members)
    ensures WellFormed(OnButton(w, presser, customId, env).members)
  {
    var m := EnsureRecord(w.members, presser);
    assert WellFormed(m);
    var r := OnButton(w, presser, customId, env);
    match Decode(customId) {
      case ChoosePlan(t) =>
        assert r.members == SetPlan(m, presser, t);
        SetPlanWellFormed(m, presser, t);
      case Pay(country) =>
        assert r.members == SetCountry(m, presser, country);
        SetCountryWellFormed(m, presser, country);
      case Approve(uid) =>
        assert r == ApproveTarget(World(m, w.guild), uid, env);
      case Reject(uid) =>
        assert r.members == RejectTarget(m, uid);
      case Unhandled =>
    }
  }

  /** Every event keeps the member map well formed. */
  lemma StepPreservesWellFormed(w: World, e: Event, env: Env)
    requires WellFormed(w.members)
    ensures WellFormed(Step(w, e, env).members)
  {
    match e
    case ButtonPress(presser, customId) =>
      ButtonPreservesWellFormed(w, presser, customId, env);
    case DirectMessage(_, _, _, _) =>
  }

  /**
   * No event shortens a subscription: every record that survives an event
   * expires no earlier than before.
   */
  lemma StepNeverShortensExpiry(w: World, e: Event, env: Env, id: UserId)
    requires Extends(env.addMonths)
    requires id in w.members && id in Step(w, e, env).members
    ensures Step(w, e, env).members[id].expireAt >= w.members[id].expireAt
  {
  }
}

=== FILE: scenarios.dfy ===
/**
 * Properties of event sequences: the purchase path from a first button
 * press to an active subscription, renewal arithmetic, rejection, and the
 * role state of a subscriber who renews.
 */
module Scenarios {
  import opened Wrappers
  import opened Catalog
  import opened Store
  import opened Commands
  import opened Entitlements
  import opened Lifecycle

  /**
   * Two approvals of a one-month plan at the same instant move the expiry
   * two calendar months past the later of now and the old expiry, not one.
   */
  lemma ApproveTwiceAddsTwoMonths(w: World, uid: UserId, env: Env)
    requires Extends(env.addMonths)
    requires uid in w.members && w.members[uid].plan == Some("1m")
    ensures var e := w.members[uid].expireAt;
      var base := if env.now < e then e else env.now;
      ApproveTarget(ApproveTarget(w, uid, env), uid, env).members[uid].expireAt
        == env.addMonths(env.addMonths(base, 1), 1)
  {
    var once := ApproveTarget(w, uid, env);
    assert once.members[uid].expireAt > env.now;
  }

  /**
   * The purchase path: a user with no record picks the one-month plan, picks
   * the VN payment rail, sends an image bill, and an operator approves.
   * When every role call goes through, the record holds the plan, the rail,
   * the note and the bill, expires one month after the approval, and among
   * the entitlement roles the user holds exactly the one-month final role.
   */
  lemma PurchasePath(w: World, uid: UserId, operator: UserId, env: Env)
    requires uid !in w.members && uid in w.guild && SEP !in uid
    requires env.now >= 0 && AllSucceed(env.calls)
    ensures
      var image := Attachment(Some("image/png"));
      var w1 := Step(w, ButtonPress(uid, "1m"), env);
      var w2 := Step(w1, ButtonPress(uid, "pay_VN"), env);
      var w3 := Step(w2, DirectMessage(uid, false, false, [image]), env);
      var w4 := Step(w3, ButtonPress(operator, "approve_" + uid), env);
      && uid in w4.members
      && w4.members[uid] == Record(Some("1m"), Some("VN"), Some(TransferNote(uid)), Some(env.billPath), env.addMonths(env.now, 1))
      && (forall x: Role :: !x.OtherRole? ==> (x in w4.guild[uid] <==> x == FinalRole(OneMonth)))
      && (forall x: Role :: x.OtherRole? ==> (x in w4.guild[uid] <==> x in w.guild[uid]))
  {
    var image := Attachment(Some("image/png"));
    var rec1 := Fresh.(plan := Some("1m"));
    var rec2 := rec1.(payCountry := Some("VN"), transferNote := Some(TransferNote(uid)));
    var rec3 := rec2.(billFile := Some(env.billPath));

    var w1 := Step(w, ButtonPress(uid, "1m"), env);
    assert Decode("1m") == ChoosePlan(OneMonth);
    assert w1.members[uid] == rec1 && w1.guild == w.guild;

    var w2 := Step(w1, ButtonPress(uid, "pay_VN"), env);
    DecodeEncode(Pay("VN"));
    assert w2.members[uid] == rec2 && w2.guild == w.guild;

    var w3 := Step(w2, DirectMessage(uid, false, false, [image]), env);
    assert "image/" <= "image/png";
    assert BillAccepted(w2.members, uid, false, false, [image]);
    assert w3.members[uid] == rec3;
    assert w3.guild[uid] == UpdateWaitingRole(w.guild[uid], "1m", env.calls);

    var w4 := Step(w3, ButtonPress(operator, "approve_" + uid), env);
    DecodeEncode(Approve(uid));
    var m3 := EnsureRecord(w3.members, operator);
    assert m3[uid] == rec3;
    assert w4 == ApproveTarget(World(m3, w3.guild), uid, env);
    assert w4.members[uid] == rec3.(expireAt := env.addMonths(env.now, 1));
    assert w4.guild[uid] == UpdateFinalRole(w3.guild[uid], "1m", env.calls);
  }

  /**
   * After a rejection the user's next plan choice starts from a fresh
   * record: no country, note, bill or expiry survives.
   */
  lemma RejectThenChooseStartsFresh(w: World, uid: UserId, operator: UserId, t: Tier, env: Env)
    requires SEP !in uid
    ensures
      var w1 := Step(w, ButtonPress(operator, "reject_" + uid), env);
      var w2 := Step(w1, ButtonPress(uid, t.Code()), env);
      uid !in w1.members && w2.members[uid] == Fresh.(plan := Some(t.Code()))
  {
    DecodeEncode(Reject(uid));
    DecodeEncode(ChoosePlan(t));
  }

  /**
   * A subscriber who holds a final role and sends a renewal bill keeps the
   * final role next to the new waiting role: the bill path clears waiting
   * roles only.
   */
  lemma RenewalHoldsTwoEntitlementRoles(w: World, uid: UserId, env: Env)
    requires uid in w.members && w.members[uid].plan == Some("1m")
    requires uid in w.guild && FinalRole(OneMonth) in w.guild[uid]
    requires AllSucceed(env.calls)
    ensures
      var w1 := Step(w, DirectMessage(uid, false, false, [Attachment(Some("image/jpeg"))]), env);
      FinalRole(OneMonth) in w1.guild[uid] && WaitRole(OneMonth) in w1.guild[uid]
  {
    assert "image/" <= "image/jpeg";
  }
}

=== FILE: store.dfy ===
/**
 * The member map: one record per user id that has pressed a button, kept
 * in memory and mirrored to a file after mutations (the file is the state
 * itself here).
 */
module Store {
  import opened Wrappers
  import opened Catalog

  type UserId = string

  /**
   * A subscription record. Every property but `expireAt` may be absent.
   * `expireAt` is an epoch time in milliseconds, 0 meaning never approved.
   */
  datatype Record = Record(
    plan: Option<string>,
    payCountry: Option<string>,
    transferNote: Option<string>,
    billFile: Option<string>,
    expireAt: int)

  type Members = map<UserId, Record>

  /** The record `{ expireAt: 0 }` created on a user's first button press. */
  const Fresh: Record := Record(None, None, None, None, 0)

  /** JavaScript truthiness of `record.plan`: present and not the empty string. */
  predicate HasPlan(r: Record) {
    r.plan.Some? && r.plan.value != ""
  }

  /** The transfer note that ties a bank transfer to a user. */
  function TransferNote(id: UserId): (n: string)
    ensures |n| == 8 + |id| && n[..8] == "DISCORD_" && n[8..] == id
  {
    "DISCORD_" + id
  }

  /** Distinct users get distinct transfer notes, so a note names one user. */
  lemma TransferNoteInjective(a: UserId, b: UserId)
    requires TransferNote(a) == TransferNote(b)
    ensures a == b
  {
    assert a == TransferNote(a)[8..];
  }

  /** The record lookup every button press starts with: a user without a record gets a fresh one. */
  function EnsureRecord(m: Members, id: UserId): (r: Members)
    ensures r.Keys == m.Keys + {id}
    ensures forall k :: k in m ==> r[k] == m[k]
    ensures id !in m ==> r[id] == Fresh
  {
    if id in m then m else m[id := Fresh]
  }

  /**
   * The shape every record the bot writes has: a plan, when present, is a
   * plan code, and a transfer note, when present, is the owner's note.
   */
  ghost predicate WellFormed(m: Members) {
    forall id :: id in m ==>
      && (m[id].plan.Some? ==> ParseTier(m[id].plan.value).Some?)
      && (m[id].transferNote.Some? ==> m[id].transferNote.value == TransferNote(id))
  }
}

=== FILE: sweeper.dfy ===
/**
 * The hourly expiry job: every record whose nonzero expiry lies more than
 * two days in the past loses its entitlement roles (when the member can be
 * fetched) and is deleted (whether or not it could).
 */
module Sweeper {
  import opened Catalog
  import opened Store
  import opened Entitlements
  import opened Lifecycle

  /** The grace period after expiry, in milliseconds. */
  const GRACE: int := 2 * DAY

  /** JavaScript truthiness of `expireAt`, and `now` strictly past the grace period. */
  predicate Expired(r: Record, now: int) {
    r.expireAt != 0 && now > r.expireAt + GRACE
  }

  /** The grace boundary is strict: one millisecond past it is swept, the boundary itself is not. */
  lemma GraceBoundary(r: Record, now: int)
    requires r.expireAt != 0
    ensures r.expireAt == now - GRACE - 1 ==> Expired(r, now)
    ensures r.expireAt == now - GRACE ==> !Expired(r, now)
    ensures r.expireAt == now - GRACE + 1 ==> !Expired(r, now)
  {
  }

  /**
   * One pass of the job at time `now`. `guildFetched` says whether the
   * server fetch that opens the pass succeeded; when it fails the pass
   * stops before visiting any record. Otherwise the records are visited one
   * by one, and `outcome(id)` is what the platform answers to the role calls
   * made for `id`. Exactly the expired records are deleted and every other
   * record is kept as it was; only the deleted users' roles change, and
   * those lose their entitlement roles as far as the calls went through.
   */
  method Sweep(w: World, now: int, guildFetched: bool, outcome: UserId -> Calls) returns (r: World)
    ensures !guildFetched ==> r == w
    ensures guildFetched ==> forall id :: id in r.members <==> id in w.members && !Expired(w.members[id], now)
    ensures forall id :: id in r.members ==> id in w.members && r.members[id] == w.members[id]
    ensures r.guild.Keys == w.guild.Keys
    ensures guildFetched ==> forall id :: id in w.guild ==>
      r.guild[id] == if id in w.members && Expired(w.members[id], now)
                     then RevokeAll(w.guild[id], outcome(id)) else w.guild[id]
  {
    if !guildFetched {
      return w;
    }
    var members := w.members;
    var guild := w.guild;
    var todo := w.members.Keys;
    while todo != {}
      invariant todo <= w.members.Keys
      invariant forall id :: id in members <==> id in w.members && (id in todo || !Expired(w.members[id], now))
      invariant forall id :: id in members ==> members[id] == w.members[id]
      invariant guild.Keys == w.guild.Keys
      invariant forall id :: id in w.guild ==>
        guild[id] == if id in w.members && id !in todo && Expired(w.members[id], now)
                     then RevokeAll(w.guild[id], outcome(id)) else w.guild[id]
      decreases todo
    {
      var id :| id in todo;
      if Expired(members[id], now) {
        if id in guild {
          guild := guild[id := RevokeAll(guild[id], outcome(id))];
        }
        members := members - {id};
      }
      todo := todo - {id};
    }
    r := World(members, guild);
  }
}

=== FILE: wrappers.dfy ===
/** The optional-value datatype used for JavaScript's `undefined`/`null` results. */
module Wrappers {

  /** `None` stands for a missing property or an `undefined` lookup. */
  datatype Option<+T> = None | Some(value: T)
}
